=== FILE: README.md ===
# ABC Retailers back office: request-handler model

This project models the decision logic of the ABC Retailers back-office web
application. The application manages customers, products and orders, and it
accepts payment-proof uploads. Its handlers sit on top of cloud table, blob,
queue and file-share storage. The model covers:

- the table entities `Customer`, `Product` and `Order`. Each entity is a Dafny
  datatype. The id property of each (`CustomerId`, `ProductId`, `OrderId`) is a
  view of `RowKey`. Each has its default partition key and field defaults, and a
  validity predicate for its data-annotation attributes (`[Required]`,
  `[StringLength]`, `[Range]`);
- the payment-proof upload (`UploadController`). This covers the ordered
  validation chain (empty file, then extension allow-list, then 5 MiB ceiling),
  the "GENERAL"/"UNKNOWN" defaults, the download and delete guards, and the
  extension to content-type mapping;
- the order actions (`OrderController`): create, status edit, show, delete and
  the JSON price lookup;
- the product actions (`ProductController`): create, the edit form, edit and
  delete, with their image handling;
- the dashboard (`HomeController.Index`).

Each controller action is a pure function of an abstract store and its input.
It returns a `Response`, which holds:

- the action result: NotFound, redirect, rendered view, JSON, file, or an
  exception that nothing catches;
- the model errors and the TempData notice the action sets;
- the storage calls it makes, in order.

The store holds one map per table, keyed by row key. It also holds the set of
stored payment-proof names and the order queue. `Storage.Effect` and
`Storage.Run` say what the writing calls (table writes and payment-proof
deletion) do to the store. This lets the
model state "nothing else changes" at the level of the store.

Some inputs come from outside the request logic, so the actions take them as
parameters:

- `formValid` is the framework's `ModelState.IsValid`;
- `newId` is the fresh GUID text of a new order;
- `uploadedUrl` is the URL the image upload returns (its blob name carries the
  upload time);
- `imageNameOf` turns an image URL into a blob name.

Files: `base.dfy` (option type, `int` range, `DateTime`), `text.dfy` (.NET
string helpers), `customer.dfy`, `product.dfy`, `order.dfy` (entities),
`storage.dfy` (store, calls, action results), `upload.dfy`, `orders.dfy`,
`products.dfy`, `home.dfy` (controllers).

Some things the model shows about the code:

- The order form has no length limit on `Status`. So Create can store an order
  whose status breaks `Order`'s own `[StringLength(20)]`
  (`OrderController.CreateCanStoreOverlongStatus`). The view may restrict the
  status to a drop-down, but the view is not part of this model.
- The product edit form parses the stored id with `int.Parse`, and nothing
  catches a failure there. Every product created through the form has an id
  that parses back to the number it came from
  (`ProductController.CreatedProductOpensInEditForm`).
- Product Delete runs the image deletion and the row deletion inside one `try`.
  If the image deletion fails, the row is not deleted. So the image deletion is
  not best-effort. The model has no failing calls, so it always deletes both.

## Model

| member | source | states |
|---|---|---|
| `UploadController.Validate` | Controllers/UploadController.cs:57-80 | the chain reports the earliest failing check in the order empty file, extension, size; it accepts exactly the files that fail no check |
| `UploadController.Post` | Controllers/UploadController.cs:39-116 | an invalid form re-renders as posted; a failing file adds exactly one error and shows a blank form; only a file that passes every check is uploaded, with "GENERAL"/"UNKNOWN" in place of an empty order id or customer name, and then the browser is redirected. The redirect path sets no model error and the success notice. |
| `UploadController.SizeBoundary` | Controllers/UploadController.cs:75-80 | a file of exactly 5*1024*1024 bytes with an accepted extension passes; one byte more is rejected for its size |
| `UploadController.ValidateIgnoresCase` | Controllers/UploadController.cs:64-72 | two files whose names agree up to case get the same validation verdict |
| `UploadController.UpperCasePdfAccepted` | Controllers/UploadController.cs:64-72 | "proof.PDF" has the extension ".pdf", passes validation and downloads as application/pdf |
| `UploadController.GetContentType` | Controllers/UploadController.cs:165-177 | the content type is specific exactly when the lower-cased extension is on the upload allow-list, and application/octet-stream otherwise |
| `UploadController.ContentTypeIgnoresCase` | Controllers/UploadController.cs:165-177 | names that agree up to case get the same content type |
| `UploadController.ContentTypesOfAllowed` | Controllers/UploadController.cs:168-176 | .jpg and .jpeg both give image/jpeg; every other allowed extension has a content type of its own |
| `UploadController.AcceptedFilesHaveContentType` | Controllers/UploadController.cs:64-176 | every file the upload accepts downloads with a content type other than application/octet-stream |
| `UploadController.Download` | Controllers/UploadController.cs:119-139 | an empty name gives NotFound with no storage call; otherwise one download call is made, and the file is sent with its content type exactly when it exists |
| `UploadController.DeleteFile` | Controllers/UploadController.cs:144-162 | an empty name gives NotFound with no storage call; any other name gets one delete call and a redirect. No path sets a model error, and the empty-name path sets no notice. |
| `UploadController.DeletedFileNotDownloaded` | Controllers/UploadController.cs:119-162 | DeleteFile removes just that payment proof, and a Download of the same name afterwards gives NotFound |
| `Text.GetExtension` | Controllers/UploadController.cs:65 | the extension is "" exactly when the name has no '.'; otherwise it is the suffix that starts at the last '.' |
| `Text.ToLowerInvariant` | Controllers/UploadController.cs:65 | lower-casing keeps the length, leaves no upper-case ASCII letter, and changes only upper-case letters |
| `Text.ToLowerIdempotent` | Controllers/UploadController.cs:65 | lower-casing twice is lower-casing once |
| `Text.ExtensionOfLower` | Controllers/UploadController.cs:65 | taking the extension commutes with lower-casing |
| `OrderController.Create` | Controllers/OrderController.cs:56-104 | an order is written only when the form is valid and both the customer and the product exist. Its fields are the fresh id, CustomerId, ProductId, Quantity and Status from the form, Username from the customer, ProductName and UnitPrice from the product, TotalPrice = UnitPrice × Quantity, and the form's date marked UTC. Otherwise no write happens and a missing record adds one model error. Neither failure path sets a notice; the success path sets no model error and the success notice. |
| `OrderController.CreateEffect` | Controllers/OrderController.cs:62-88 | a successful create adds exactly the placed order to the orders table and to the queue; a failed one leaves the store unchanged, and so does a GUID that is already a row key |
| `OrderController.CreatedOrderIsShown` | Controllers/OrderController.cs:62-125 | after a successful create under a fresh, non-empty id, Edit (GET) and Details show exactly the placed order under that id |
| `OrderController.PlacedOrderValid` | Controllers/OrderController.cs:71-83 | the placed order meets the `Order` attributes when the copied records and the form fields do, and its total is at least its unit price |
| `OrderController.CreateCanStoreOverlongStatus` | Controllers/OrderController.cs:62-88 | for every store holding the customer and the product, a valid form whose status is longer than 20 characters is accepted, and the order it stores breaks `[StringLength(20)]` |
| `OrderController.EditPost` | Controllers/OrderController.cs:130-184 | a route id that differs from the posted OrderId gives NotFound with no call; an order that has gone gives an error notice and no write; otherwise the current row is written back with only Status replaced and OrderDate marked UTC, every other field (ETag included) kept. The write path sets no model error. |
| `OrderController.EditChangesOnlyStatus` | Controllers/OrderController.cs:146-159 | after a successful edit the store differs only at the edited order row, whose status is the posted one; the other tables, the queue and the stored proofs are untouched, and an edit that writes nothing leaves the store as it was |
| `OrderController.StatusUpdatePreservesValidity` | Controllers/OrderController.cs:153-157 | replacing the status of a valid order with a valid status keeps it valid and keeps its id |
| `OrderController.ShowOrder` | Controllers/OrderController.cs:107-125 | Edit (GET) and Details (lines 187-205) answer an empty id with NotFound and no call; otherwise they show the stored order, or NotFound when it is missing. No path sets a model error or a notice. |
| `OrderController.Delete` | Controllers/OrderController.cs:210-231 | DeleteOrder is called only when the lookup finds the order; otherwise the "Order not found." notice is set. No path sets a model error. |
| `OrderController.DeleteRemovesOrder` | Controllers/OrderController.cs:214-223 | after Delete the order is absent and nothing else in the store has changed |
| `OrderController.DeletedOrderNotShown` | Controllers/OrderController.cs:107-231 | after Delete, Edit (GET) and Details for that id give NotFound |
| `OrderController.GetProductPrice` | Controllers/OrderController.cs:235-256 | success with the product's price, stock and name exactly when the product exists, and a failure reply otherwise. No model error or notice is set. |
| `ProductController.Create` | Controllers/ProductController.cs:37-71 | the product is stored under the decimal text of the form's integer id. An upload happens, and ImageUrl is its URL, only when a non-empty file is supplied; otherwise ImageUrl is empty and no upload happens. With a valid form no model error is set and the success notice is. |
| `ProductController.EditForm` | Controllers/ProductController.cs:74-95 | an empty or unknown id gives NotFound; an id that does not parse as an `int` gives an exception nothing catches; the form is rendered exactly when the product exists and its id parses, and it shows the stored fields, with the id parsed back. No path sets a model error or a notice. |
| `ProductController.CreatedProductOpensInEditForm` | Controllers/ProductController.cs:53-86 | a product created through the form under an id not yet taken opens in the edit form, which shows the same id and fields |
| `ProductController.EditPost` | Controllers/ProductController.cs:100-141 | a missing product gives NotFound with no write. Otherwise only name, description, price and stock are overwritten and the id is kept. ImageUrl is kept unless a non-empty file is supplied. With a new file the calls are exactly: the lookup, the deletion of the old image when the old URL is non-empty, the upload under the product's id, then the update. The write path sets no model error and the success notice. |
| `ProductController.EditChangesOnlyThatProduct` | Controllers/ProductController.cs:113-131 | after an edit the store differs only at the edited product row, which holds the posted fields; the other tables, the queue and the stored proofs are untouched |
| `ProductController.EditedProductPriceIsReported` | Controllers/ProductController.cs:106-131 | after an edit of a stored product, the order form's price lookup (OrderController.cs lines 235-256) replies with the posted price, stock and name |
| `ProductController.EditPreservesValidity` | Controllers/ProductController.cs:113-116 | a valid product edited with fields that meet the `Product` attributes stays valid and keeps its id |
| `ProductController.Delete` | Controllers/ProductController.cs:146-165 | the image is deleted only when the product exists with a non-empty ImageUrl, and before the row; DeleteProduct is always the last call. No path sets a model error; the success notice is always set. |
| `ProductController.DeleteRemovesProduct` | Controllers/ProductController.cs:150-157 | after Delete the product row is absent and no other table has changed |
| `Text.Utf16Length` | Models/Order.cs:54 | the length `[StringLength]` checks counts one UTF-16 code unit per character, two for a character outside the Basic Multilingual Plane, so it lies between the number of characters and twice that |
| `Text.Utf16LengthOfBmp` | Models/Order.cs:54 | a string with no character outside the Basic Multilingual Plane has a UTF-16 length equal to its number of characters |
| `Text.IntToString` | Controllers/ProductController.cs:53 | the decimal text is non-empty and starts with '-' exactly for negative numbers |
| `Text.ParseInt` | Controllers/ProductController.cs:86 | a successful parse yields a value in the `int` range; failure is the exception case |
| `Text.ParseIntToString` | Controllers/ProductController.cs:86 | parsing the decimal text of an `int` gives the `int` back |
| `Text.IntToStringInjective` | Controllers/ProductController.cs:53 | distinct `int` ids have distinct row keys |
| `HomeController.Index` | Controllers/HomeController.cs:18-33 | FeaturedProducts is a prefix of the product list of length min(5, count); the three counts are the lengths of the three lists |
| `HomeController.Take` | Controllers/HomeController.cs:26 | `Take(n)` returns a prefix of length min(n, length) |
| `Text.IsWhiteSpace` | Models/Customer.cs:14 | the characters `[Required]` treats as blank: tab, line feed, carriage return and space are among them, no ASCII letter or digit is, and none lies above U+3000 |
| `Text.Present` | Models/Customer.cs:14 | a `[Required]` string is present exactly when some character of it is not white space, so a present string is never empty |
| `CustomerModel.ValidCustomer` | Models/Customer.cs:14-42 | a valid customer has a non-empty id and email, a name, surname and username of 1 to 50 characters, and a shipping address of 1 to 200 characters |
| `ProductModel.ValidProduct` | Models/Products.cs:16-40 | a valid product has a non-empty id, a name of 1 to 100 characters, a description of 1 to 500, a price above 0, and a stock between 0 and the `int` maximum |
| `OrderModel.ValidOrder` | Models/Order.cs:14-55 | a valid order has a non-empty id, customer id, username, product id and product name, a status of 1 to 20 characters, and a quantity between 1 and the `int` maximum |
| `CustomerModel.Customer.WithCustomerId` | Models/Customer.cs:16-20 | setting CustomerId sets RowKey and changes no other field; reading it back gives the value set |
| `CustomerModel.NewCustomer` | Models/Customer.cs:9-10 | a fresh customer has PartitionKey "Customer" and an empty id, and it fails validation |
| `OrderModel.Order.WithOrderId` | Models/Order.cs:16-20 | setting OrderId sets RowKey and changes no other field; reading it back gives the value set |
| `OrderModel.NewOrder` | Models/Order.cs:9-55 | a fresh order has PartitionKey "Order", Status "Pending" and an empty id, and it fails validation (quantity 0) |
| `ProductModel.Product.WithProductId` | Models/Products.cs:18-22 | setting ProductId sets RowKey and changes no other field; reading it back gives the value set |
| `ProductModel.NewProduct` | Models/Products.cs:11-12 | a fresh product has PartitionKey "Product" and an empty id, and it fails validation |
| `Base.SpecifyKind` | Controllers/OrderController.cs:69 | re-labelling a date as UTC keeps its clock reading (the ticks) and sets the kind to UTC |
| `Storage.Lookup` | Services/AzureStorageService.cs:150-155 | a lookup finds a row exactly when the key is in the table, and returns that row |
| `Storage.Effect` | Services/AzureStorageService.cs:124-288 | a product or order create stores exactly the given row, in the table's partition, under a row key not yet taken, and changes nothing when the key is taken; an update stores exactly the given row; a delete removes the row; every other row and table is unchanged; creating an order also appends the stored row to the queue; deleting a payment proof removes that name from the stored proofs; other calls change nothing |
| `Storage.RunKeepsWellFormed` | Services/AzureStorageService.cs:124-190 | every row stays under its own row key in its table's partition, whatever calls run |

## Left out

- Storage SDK semantics are only partly modelled. ETag optimistic concurrency, `CreateIfNotExists` and query ordering are not. A create under a row key already taken writes nothing, as `AddEntityAsync` fails there. Updates are modelled as writes at the row key, and deletes as removal. The list calls return lists whose order the model takes as input.
- Exceptions thrown by storage calls are not modelled. Apart from the create conflict above, every storage call succeeds. Even for that conflict, the controllers' responses still report success. So the `catch` paths are absent: TempData error messages, re-rendering after a failed create or edit, and the reload in order Edit.
- Blob and file-share contents are not tracked by `Storage.Effect`. Only the names of the stored payment proofs are kept, and `DeletePaymentProof` removes one of them. Uploads add names built from `DateTime.Now`, which are not deterministic, so uploads do not change the model's set of proofs, and neither do product-image uploads or deletions.
- JSON serialisation of queue messages is not modelled; the queue holds order records.
- Price, UnitPrice and TotalPrice are `real`. IEEE double rounding and the `double.MaxValue` upper bound of `[Range]` are not modelled.
- The conversion from an image URL to a blob name (`new Uri(url).LocalPath`, `Path.GetFileName`) is the parameter `imageNameOf`.
- `Text.GetExtension`: directory separators are not modelled, and neither is the rule that a trailing '.' gives an empty extension. Neither one changes an allow-list or content-type decision.
- `Text.ToLowerInvariant`: only ASCII letters are lower-cased. The invariant culture also lower-cases non-ASCII letters, but only one of them lands on an ASCII letter: U+212A (Kelvin sign) becomes 'k'. U+0130 is mapped to itself. 'k' does not occur in the six allowed extensions. So this does not change which names the allow-list accepts or which content type a name gets.
- `Text.IntToString` and `Text.ParseInt` assume a current culture whose negative sign is '-' and whose digits are '0' to '9'. `int.ToString()` and `int.Parse` follow the current culture, and a culture with another negative sign is not modelled.
- `Text.ParseInt`: it accepts only an optional '-' followed by decimal digits. `int.Parse` also accepts surrounding white space and a leading '+'. Text written by `Text.IntToString` never has these.
- A C# null string is represented as "", and the null checks in the core are all `IsNullOrEmpty`. The one place where null and "" differ is `id != order.OrderId` in order Edit, when one side is null and the other is "". That case is not modelled.
- ModelState validation is the input flag `formValid`. The `[Required]` attribute on the upload form's file makes a missing file fail `formValid`. So the "Please select a file" branch is reached in practice only by a zero-length file, but the model keeps the null case as the code does.
- The `[EmailAddress]` format check on `Customer.Email` is not modelled.
- Views, anti-forgery, logging and TempData message text are not modelled. Notices and model errors are enumerations.
- The list pages (`Index` of Order, Product and Upload) and the order Create GET form are not modelled. They only pass storage lists to a view, and Create GET reads the clock.
- The `Timestamp` column of the entities and the `[NotMapped] ProductImage` property of `Product` are not modelled. Neither one is read by the core.

=== FILE: base.dfy ===
/** Small shared vocabulary: nullable references, the 32-bit integer range of
    C# `int`, and the `DateTime` value the order records carry. */
module Base {

  /** A C# reference that may be null: `None` stands for null. */
  datatype Option<+T> = None | Some(value: T)

  /** Bounds of a C# `int` (System.Int32). */
  const Int32Min: int := -0x8000_0000
  const Int32Max: int := 0x7FFF_FFFF

  predicate IsInt32(n: int) {
    Int32Min <= n <= Int32Max
  }

  /** The `Kind` tag of a .NET `DateTime`. */
  datatype DateTimeKind = Unspecified | Utc | Local

  /** A .NET `DateTime`: a clock reading counted in ticks, and its kind. */
  datatype DateTime = DateTime(ticks: int, kind: DateTimeKind)

  /** `DateTime.SpecifyKind`: re-labels the kind, keeps the clock reading (the ticks). */
  function SpecifyKind(d: DateTime, kind: DateTimeKind): (r: DateTime)
    ensures r.ticks == d.ticks
    ensures r.kind == kind
  {
    d.(kind := kind)
  }
}

=== FILE: customer.dfy ===
/** The `Customer` table entity and its data-annotation constraints. */
module CustomerModel {
  import opened Text

  /** Every customer row lives in this partition. */
  const CustomerPartition: string := "Customer"

  /** A customer row. `CustomerId` is not a stored column of its own: it is
      a view of `RowKey`. */
  datatype Customer = Customer(
    PartitionKey: string,
    RowKey: string,
    ETag: string,
    Name: string,
    Surname: string,
    Username: string,
    Email: string,
    ShippingAddress: string)
  {
    /** Reading `CustomerId` reads `RowKey`. */
    function CustomerId(): string {
      RowKey
    }

    /** Assigning `CustomerId` assigns `RowKey`, and nothing else. */
    function WithCustomerId(id: string): (c: Customer)
      ensures c.CustomerId() == id && c.RowKey == id
      ensures c.PartitionKey == PartitionKey && c.ETag == ETag
      ensures c.Name == Name && c.Surname == Surname && c.Username == Username
      ensures c.Email == Email && c.ShippingAddress == ShippingAddress
    {
      this.(RowKey := id)
    }
  }

  /** A customer as `new Customer()` leaves it. It does not yet pass
      validation: every required field is still empty. */
  function NewCustomer(): (c: Customer)
    ensures c.PartitionKey == CustomerPartition
    ensures c.CustomerId() == c.RowKey == ""
    ensures !ValidCustomer(c)
  {
    Customer(CustomerPartition, "", "", "", "", "", "", "")
  }

  /** The `[Required]` and `[StringLength]` attributes of the class. The
      `[EmailAddress]` format check is not part of this model. */
  predicate ValidCustomer(c: Customer)
    ensures ValidCustomer(c) ==>
              && c.CustomerId() != "" && c.Email != ""
              && 1 <= |c.Name| <= 50 && 1 <= |c.Surname| <= 50 && 1 <= |c.Username| <= 50
              && 1 <= |c.ShippingAddress| <= 200
  {
    && Present(c.CustomerId())
    && Present(c.Name) && AtMost(c.Name, 50)
    && Present(c.Surname) && AtMost(c.Surname, 50)
    && Present(c.Username) && AtMost(c.Username, 50)
    && Present(c.Email)
    && Present(c.ShippingAddress) && AtMost(c.ShippingAddress, 200)
  }
}

=== FILE: home.dfy ===
/** `HomeController.Index`: the dashboard. The three lists are what the
    storage service's list calls return, in the order they return them. */
module HomeController {
  import opened Storage
  import opened CustomerModel
  import opened ProductModel
  import opened OrderModel

  /** How many products the dashboard features. */
  const FeaturedCount: nat := 5

  /** The dashboard view model (`HomeViewModel`). */
  datatype Dashboard = Dashboard(
    FeaturedProducts: seq<Product>,
    CustomerCount: nat,
    ProductCount: nat,
    OrderCount: nat)

  /** LINQ `Take(n)`: the first `n` elements, or all of them when there are
      fewer, read one at a time from the front. */
  method Take<T>(xs: seq<T>, n: nat) returns (taken: seq<T>)
    ensures |taken| == if |xs| < n then |xs| else n
    ensures taken <= xs
  {
    taken := [];
    var i := 0;
    while i < |xs| && i < n
      invariant i <= |xs| && i <= n
      invariant taken == xs[..i]
    {
      taken := taken + [xs[i]];
      i := i + 1;
    }
  }

  /** GET Home/Index: up to five products featured, taken from the front of
      the product list, and the size of each list. */
  method Index(products: seq<Product>, customers: seq<Customer>, orders: seq<Order>)
    returns (view: Dashboard, calls: seq<Call>)
    ensures calls == [ListProducts, ListCustomers, ListOrders]
    ensures view.FeaturedProducts <= products
    ensures |view.FeaturedProducts| == if |products| < FeaturedCount then |products| else FeaturedCount
    ensures view.ProductCount == |products|
    ensures view.CustomerCount == |customers|
    ensures view.OrderCount == |orders|
  {
    var featured := Take(products, FeaturedCount);
    view := Dashboard(featured, |customers|, |products|, |orders|);
    calls := [ListProducts, ListCustomers, ListOrders];
  }
}

=== FILE: order.dfy ===
/** The `Order` table entity and its data-annotation constraints. */
module OrderModel {
  import opened Base
  import opened Text

  /** Every order row lives in this partition. */
  const OrderPartition: string := "Order"

  /** The status a new order starts with. */
  const PendingStatus: string := "Pending"

  /** An order row. `OrderId` is a view of `RowKey`. Customer username and
      product name and price are copies taken when the order is placed. */
  datatype Order = Order(
    PartitionKey: string,
    RowKey: string,
    ETag: string,
    CustomerId: string,
    Username: string,
    ProductId: string,
    ProductName: string,
    OrderDate: DateTime,
    Quantity: int,
    UnitPrice: real,
    TotalPrice: real,
    Status: string)
  {
    /** Reading `OrderId` reads `RowKey`. */
    function OrderId(): string {
      RowKey
    }

    /** Assigning `OrderId` assigns `RowKey`, and nothing else. */
    function WithOrderId(id: string): (o: Order)
      ensures o.OrderId() == id && o.RowKey == id
      ensures o.PartitionKey == PartitionKey && o.ETag == ETag
      ensures o.CustomerId == CustomerId && o.Username == Username
      ensures o.ProductId == ProductId && o.ProductName == ProductName
      ensures o.OrderDate == OrderDate && o.Quantity == Quantity
      ensures o.UnitPrice == UnitPrice && o.TotalPrice == TotalPrice
      ensures o.Status == Status
    {
      this.(RowKey := id)
    }
  }

  /** An order as `new Order()` leaves it; `now` is the clock reading that
      initialises `OrderDate`. It does not yet pass validation: its id is
      empty and its quantity is 0. */
  function NewOrder(now: DateTime): (o: Order)
    ensures o.PartitionKey == OrderPartition
    ensures o.Status == PendingStatus
    ensures o.OrderId() == o.RowKey == ""
    ensures o.OrderDate == now
    ensures !ValidOrder(o)
  {
    Order(OrderPartition, "", "", "", "", "", "", now, 0, 0.0, 0.0, PendingStatus)
  }

  /** The `[Required]`, `[Range]` and `[StringLength]` attributes of the
      class. `[Required]` on the value-typed properties (date, quantity,
      prices) always holds. */
  predicate ValidOrder(o: Order)
    ensures ValidOrder(o) ==>
              && o.OrderId() != "" && o.CustomerId != "" && o.Username != ""
              && o.ProductId != "" && o.ProductName != ""
              && 1 <= |o.Status| <= 20
              && o.Quantity > 0 && IsInt32(o.Quantity)
  {
    && Present(o.OrderId())
    && Present(o.CustomerId)
    && Present(o.Username)
    && Present(o.ProductId)
    && Present(o.ProductName)
    && 1 <= o.Quantity <= Int32Max
    && Present(o.Status) && AtMost(o.Status, 20)
  }
}

=== FILE: orders.dfy ===
/** `OrderController`: placing an order, changing its status, showing and
    deleting it, and the price lookup the order form calls. */
module OrderController {
  import opened Base
  import opened Text
  import opened Storage
  import opened ActionResults
  import opened CustomerModel
  import opened ProductModel
  import opened OrderModel

  /** The order form (`OrderCreateViewModel`), without its drop-down lists. */
  datatype OrderForm = OrderForm(
    CustomerId: string,
    ProductId: string,
    Quantity: int,
    OrderDate: DateTime,
    Status: string)

  /** The order placed for `form` by customer `c` for product `p`: username,
      product name and unit price are copied from the records, the rest
      from the form, and the date is marked as UTC. */
  function PlacedOrder(form: OrderForm, c: Customer, p: Product, newId: string): Order {
    NewOrder(form.OrderDate).(
      RowKey := newId,
      CustomerId := form.CustomerId,
      Username := c.Username,
      ProductId := form.ProductId,
      ProductName := p.ProductName,
      OrderDate := SpecifyKind(form.OrderDate, Utc),
      Quantity := form.Quantity,
      UnitPrice := p.Price,
      TotalPrice := p.Price * form.Quantity as real,
      Status := form.Status)
  }

  /** POST Order/Create. `newId` is the fresh GUID text. The order is
      written only when the form is valid and both the customer and the
      product exist; otherwise nothing is written, and a missing record adds
      one model error. */
  function Create(s: Store, formValid: bool, form: OrderForm, newId: string): (r: Response<OrderForm>)
    ensures r.outcome.RedirectToIndex? <==>
              formValid && form.CustomerId in s.customers && form.ProductId in s.products
    ensures !r.outcome.RedirectToIndex? ==> ReadOnly(r.calls) && r.outcome == Render(form)
    ensures !formValid ==> r.calls == [ListCustomers, ListProducts] && r.errors == [] && r.notice == NoNotice
    ensures formValid && !r.outcome.RedirectToIndex? ==>
              && r.calls == [GetCustomer(form.CustomerId), GetProduct(form.ProductId), ListCustomers, ListProducts]
              && r.errors == [InvalidCustomerOrProduct] && r.notice == NoNotice
    ensures r.outcome.RedirectToIndex? ==>
              var c := s.customers[form.CustomerId];
              var p := s.products[form.ProductId];
              && |r.calls| == 3
              && r.calls[..2] == [GetCustomer(form.CustomerId), GetProduct(form.ProductId)]
              && r.calls[2].CreateOrder?
              && var o := r.calls[2].order;
              && o.OrderId() == newId
              && o.PartitionKey == OrderPartition
              && o.CustomerId == form.CustomerId && o.Username == c.Username
              && o.ProductId == form.ProductId && o.ProductName == p.ProductName
              && o.Quantity == form.Quantity && o.UnitPrice == p.Price
              && o.TotalPrice == o.UnitPrice * o.Quantity as real
              && o.Status == form.Status
              && o.OrderDate.ticks == form.OrderDate.ticks && o.OrderDate.kind == Utc
              && r.errors == [] && r.notice == Succeeded
  {
    if !formValid then
      Response(Render(form), [], NoNotice, [ListCustomers, ListProducts])
    else
      var lookups := [GetCustomer(form.CustomerId), GetProduct(form.ProductId)];
      match (Lookup(s.customers, form.CustomerId), Lookup(s.products, form.ProductId))
      case (Some(c), Some(p)) =>
        Response(RedirectToIndex, [], Succeeded, lookups + [CreateOrder(PlacedOrder(form, c, p, newId))])
      case _ =>
        Response(Render(form), [InvalidCustomerOrProduct], NoNotice, lookups + [ListCustomers, ListProducts])
  }

  /** The order Edit stores: the current row with only its status replaced
      and its date marked as UTC. */
  function StatusUpdated(current: Order, status: string): Order {
    current.(Status := status, OrderDate := SpecifyKind(current.OrderDate, Utc))
  }

  /** POST Order/Edit. A route id that differs from the posted order's id is
      NotFound with no storage call. Otherwise, with a valid form, the
      current row is fetched again and written back with only the posted
      status; a row that has gone leaves an error notice and no write. */
  function EditPost(s: Store, formValid: bool, id: string, posted: Order): (r: Response<Order>)
    ensures id != posted.OrderId() ==> r == Response(NotFound, [], NoNotice, [])
    ensures id == posted.OrderId() && !formValid ==> r == Response(Render(posted), [], NoNotice, [])
    ensures id == posted.OrderId() && formValid && id !in s.orders ==>
              r == Response(RedirectToIndex, [], OrderMissingOrModified, [GetOrder(id)])
    ensures !ReadOnly(r.calls) <==> id == posted.OrderId() && formValid && id in s.orders
    ensures !ReadOnly(r.calls) ==>
              var cur := s.orders[id];
              && |r.calls| == 2 && r.calls[0] == GetOrder(id) && r.calls[1].UpdateOrder?
              && var o := r.calls[1].order;
              && o.Status == posted.Status
              && o.OrderDate.ticks == cur.OrderDate.ticks && o.OrderDate.kind == Utc
              && o.PartitionKey == cur.PartitionKey && o.RowKey == cur.RowKey && o.ETag == cur.ETag
              && o.CustomerId == cur.CustomerId && o.Username == cur.Username
              && o.ProductId == cur.ProductId && o.ProductName == cur.ProductName
              && o.Quantity == cur.Quantity && o.UnitPrice == cur.UnitPrice && o.TotalPrice == cur.TotalPrice
              && r.outcome.RedirectToIndex? && r.errors == [] && r.notice == Succeeded
  {
    if id != posted.OrderId() then Response(NotFound, [], NoNotice, [])
    else if !formValid then Response(Render(posted), [], NoNotice, [])
    else
      match Lookup(s.orders, id)
      case None => Response(RedirectToIndex, [], OrderMissingOrModified, [GetOrder(id)])
      case Some(cur) =>
        var calls := [GetOrder(id), UpdateOrder(StatusUpdated(cur, posted.Status))];
        assert calls[1].Writes();
        Response(RedirectToIndex, [], Succeeded, calls)
  }

  /** GET Order/Edit and GET Order/Details: an empty id is NotFound with no
      storage call; otherwise the stored order is shown, or NotFound. */
  function ShowOrder(s: Store, id: string): (r: Response<Order>)
    ensures r.calls == [] <==> IsNullOrEmpty(id)
    ensures !IsNullOrEmpty(id) ==> r.calls == [GetOrder(id)]
    ensures r.outcome.Render? <==> !IsNullOrEmpty(id) && id in s.orders
    ensures r.outcome.Render? ==> r.outcome.model == s.orders[id]
    ensures !r.outcome.Render? ==> r.outcome.NotFound?
    ensures r.errors == [] && r.notice == NoNotice
  {
    if IsNullOrEmpty(id) then Response(NotFound, [], NoNotice, [])
    else
      match Lookup(s.orders, id)
      case None => Response(NotFound, [], NoNotice, [GetOrder(id)])
      case Some(o) => Response(Render(o), [], NoNotice, [GetOrder(id)])
  }

  /** POST Order/Delete: the order is deleted only when the lookup finds
      it; otherwise an "Order not found." notice is left. */
  function Delete(s: Store, id: string): (r: Response<Order>)
    ensures r.outcome.RedirectToIndex? && r.errors == []
    ensures id in s.orders ==> r.calls == [GetOrder(id), DeleteOrder(id)] && r.notice == Succeeded
    ensures id !in s.orders ==> r.calls == [GetOrder(id)] && r.notice == OrderNotFound
  {
    match Lookup(s.orders, id)
    case Some(_) => Response(RedirectToIndex, [], Succeeded, [GetOrder(id), DeleteOrder(id)])
    case None => Response(RedirectToIndex, [], OrderNotFound, [GetOrder(id)])
  }

  /** The JSON the price lookup returns. */
  datatype PriceReply =
    | PriceFound(price: real, stock: int, name: string)   // success = true
    | PriceMissing                                       // success = false, "Product not found"

  /** GET Order/GetProductPrice: the product's price, stock and name, or a
      failure reply when there is no such product. */
  function GetProductPrice(s: Store, productId: string): (r: Response<PriceReply>)
    ensures r.calls == [GetProduct(productId)]
    ensures r.outcome.Json?
    ensures r.errors == [] && r.notice == NoNotice
    ensures r.outcome.reply.PriceFound? <==> productId in s.products
    ensures r.outcome.reply.PriceFound? ==>
              var p := s.products[productId];
              r.outcome.reply == PriceFound(p.Price, p.StockAvailable, p.ProductName)
  {
    match Lookup(s.products, productId)
    case Some(p) => Response(Json(PriceFound(p.Price, p.StockAvailable, p.ProductName)), [], NoNotice, [GetProduct(productId)])
    case None => Response(Json(PriceMissing), [], NoNotice, [GetProduct(productId)])
  }

  // ---------------------------------------------------------------------
  // Effect on the store

  /** A successful Create adds exactly the placed order to the orders table
      and the queue, under the fresh id; a failed one changes nothing, and
      so does a fresh id that is already a row key (`AddEntityAsync` fails). */
  lemma CreateEffect(s: Store, formValid: bool, form: OrderForm, newId: string)
    ensures var r := Create(s, formValid, form, newId);
            var t := Run(s, r.calls);
            && t.customers == s.customers && t.products == s.products
            && (r.outcome.RedirectToIndex? && newId !in s.orders ==>
                  var o := PlacedOrder(form, s.customers[form.CustomerId], s.products[form.ProductId], newId);
                  t.orders == s.orders[newId := o] && t.queue == s.queue + [o] && newId in t.orders)
            && (r.outcome.RedirectToIndex? && newId in s.orders ==> t == s)
            && (!r.outcome.RedirectToIndex? ==> t == s)
  {
  }

  /** The order a successful Create places is the one Details then shows
      under the new id. */
  lemma CreatedOrderIsShown(s: Store, form: OrderForm, newId: string)
    ensures var r := Create(s, true, form, newId);
            r.outcome.RedirectToIndex? && !IsNullOrEmpty(newId) && newId !in s.orders ==>
              ShowOrder(Run(s, r.calls), newId).outcome
                == Render(PlacedOrder(form, s.customers[form.CustomerId], s.products[form.ProductId], newId))
  {
    CreateEffect(s, true, form, newId);
  }

  /** A successful Edit changes one row of one table: the edited order,
      whose status becomes the posted one while every other field is kept
      (the date only re-labelled as UTC). */
  lemma EditChangesOnlyStatus(s: Store, formValid: bool, id: string, posted: Order)
    requires WellFormed(s)
    ensures var r := EditPost(s, formValid, id, posted);
            var t := Run(s, r.calls);
            && (!ReadOnly(r.calls) ==> t == s.(orders := s.orders[id := StatusUpdated(s.orders[id], posted.Status)]))
            && (ReadOnly(r.calls) ==> t == s)
  {
  }

  /** After Delete the order is gone, whether or not it was there, and
      nothing else has changed. */
  lemma DeleteRemovesOrder(s: Store, id: string)
    ensures var t := Run(s, Delete(s, id).calls);
            && id !in t.orders
            && t == s.(orders := s.orders - {id})
  {
  }

  /** Once Delete has run, Details finds no order under that id. */
  lemma DeletedOrderNotShown(s: Store, id: string)
    ensures var t := Run(s, Delete(s, id).calls);
            ShowOrder(t, id).outcome.NotFound?
  {
    DeleteRemovesOrder(s, id);
  }

  // ---------------------------------------------------------------------
  // Validity of the stored orders

  /** The placed order passes the `Order` attributes when the records it
      copies from and the form's fields meet them. */
  lemma PlacedOrderValid(form: OrderForm, c: Customer, p: Product, newId: string)
    requires ValidCustomer(c) && ValidProduct(p)
    requires Present(newId) && Present(form.CustomerId) && Present(form.ProductId)
    requires 1 <= form.Quantity <= Int32Max
    requires Present(form.Status) && AtMost(form.Status, 20)
    ensures ValidOrder(PlacedOrder(form, c, p, newId))
    ensures PlacedOrder(form, c, p, newId).TotalPrice >= PlacedOrder(form, c, p, newId).UnitPrice
  {
  }

  /** The order form puts no length limit on the status, so a successful
      Create with a status longer than 20 characters stores an order that
      breaks the `[StringLength(20)]` of `Order`. */
  lemma CreateCanStoreOverlongStatus(s: Store, form: OrderForm, newId: string)
    requires form.CustomerId in s.customers && form.ProductId in s.products
    requires newId !in s.orders
    requires |form.Status| > 20
    ensures var r := Create(s, true, form, newId);
            var t := Run(s, r.calls);
            && r.outcome.RedirectToIndex?
            && !ValidOrder(r.calls[2].order)
            && newId in t.orders && !ValidOrder(t.orders[newId])
  {
    CreateEffect(s, true, form, newId);
  }

  /** A status Edit keeps an order valid when the posted status is valid. */
  lemma StatusUpdatePreservesValidity(cur: Order, status: string)
    requires ValidOrder(cur)
    requires Present(status) && AtMost(status, 20)
    ensures ValidOrder(StatusUpdated(cur, status))
    ensures StatusUpdated(cur, status).OrderId() == cur.OrderId()
  {
  }
}

=== FILE: product.dfy ===
/** The `Product` table entity and its data-annotation constraints. */
module ProductModel {
  import opened Base
  import opened Text

  /** Every product row lives in this partition. */
  const ProductPartition: string := "Product"

  /** The smallest price `[Range(0.01, ...)]` admits. */
  const MinPrice: real := 0.01

  /** A product row. `ProductId` is a view of `RowKey`. `ImageUrl` is the
      address of the product's picture in blob storage; "" stands for both
      the empty string and null. */
  datatype Product = Product(
    PartitionKey: string,
    RowKey: string,
    ETag: string,
    ProductName: string,
    Description: string,
    Price: real,
    StockAvailable: int,
    ImageUrl: string)
  {
    /** Reading `ProductId` reads `RowKey`. */
    function ProductId(): string {
      RowKey
    }

    /** Assigning `ProductId` assigns `RowKey`, and nothing else. */
    function WithProductId(id: string): (p: Product)
      ensures p.ProductId() == id && p.RowKey == id
      ensures p.PartitionKey == PartitionKey && p.ETag == ETag
      ensures p.ProductName == ProductName && p.Description == Description
      ensures p.Price == Price && p.StockAvailable == StockAvailable
      ensures p.ImageUrl == ImageUrl
    {
      this.(RowKey := id)
    }
  }

  /** A product as `new Product()` leaves it. It does not yet pass
      validation: its id, name and description are empty and its price 0. */
  function NewProduct(): (p: Product)
    ensures p.PartitionKey == ProductPartition
    ensures p.ProductId() == p.RowKey == ""
    ensures p.ImageUrl == ""
    ensures !ValidProduct(p)
  {
    Product(ProductPartition, "", "", "", "", 0.0, 0, "")
  }

  /** The `[Required]`, `[Range]` and `[StringLength]` attributes of the
      class. The upper bound `double.MaxValue` on the price is not
      modelled, since prices are real numbers here. */
  predicate ValidProduct(p: Product)
    ensures ValidProduct(p) ==>
              && p.ProductId() != ""
              && 1 <= |p.ProductName| <= 100 && 1 <= |p.Description| <= 500
              && p.Price > 0.0 && 0 <= p.StockAvailable && IsInt32(p.StockAvailable)
  {
    && Present(p.ProductId())
    && Present(p.ProductName) && AtMost(p.ProductName, 100)
    && Present(p.Description) && AtMost(p.Description, 500)
    && p.Price >= MinPrice
    && 0 <= p.StockAvailable <= Int32Max
  }
}

=== FILE: products.dfy ===
/** `ProductController`: creating, editing and deleting products, and the
    handling of their images in blob storage. Image URLs are turned into
    blob names by `imageNameOf`, which stands for
    `Path.GetFileName(new Uri(url).LocalPath)`. `uploadedUrl` is the address
    the image upload returns; its blob name carries the upload time. */
module ProductController {
  import opened Base
  import opened Text
  import opened Storage
  import opened ActionResults
  import opened ProductModel
  import OrderController

  /** The product form (`ProductCreateViewModel`), used for create and edit. */
  datatype ProductForm = ProductForm(
    ProductId: int,
    ProductName: string,
    Description: string,
    Price: real,
    StockAvailable: int,
    ProductImageFile: Option<FormFile>)

  /** A file was chosen and it is not empty. */
  predicate HasNewImage(f: Option<FormFile>) {
    f.Some? && f.value.length > 0
  }

  /** The product Create stores for `form`, with the given image URL. */
  function NewProductFrom(form: ProductForm, imageUrl: string): Product {
    NewProduct().(
      RowKey := IntToString(form.ProductId),
      ProductName := form.ProductName,
      Description := form.Description,
      Price := form.Price,
      StockAvailable := form.StockAvailable,
      ImageUrl := imageUrl)
  }

  /** POST Product/Create. With a valid form the product is created under
      the decimal text of the form's id, after uploading its image when a
      non-empty file was chosen; without such a file no upload happens and
      the image URL stays empty. */
  function Create(formValid: bool, form: ProductForm, uploadedUrl: string): (r: Response<ProductForm>)
    ensures !formValid ==> r == Response(Render(form), [], NoNotice, [])
    ensures formValid ==>
              && r.outcome.RedirectToIndex? && r.errors == [] && r.notice == Succeeded
              && |r.calls| >= 1 && r.calls[|r.calls| - 1].CreateProduct?
              && var p := r.calls[|r.calls| - 1].product;
              && p.ProductId() == IntToString(form.ProductId)
              && p.PartitionKey == ProductPartition
              && p.ProductName == form.ProductName && p.Description == form.Description
              && p.Price == form.Price && p.StockAvailable == form.StockAvailable
              && (HasNewImage(form.ProductImageFile) ==>
                    r.calls == [UploadProductImage(form.ProductImageFile.value, IntToString(form.ProductId)), CreateProduct(p)]
                    && p.ImageUrl == uploadedUrl)
              && (!HasNewImage(form.ProductImageFile) ==> r.calls == [CreateProduct(p)] && p.ImageUrl == "")
  {
    if !formValid then Response(Render(form), [], NoNotice, [])
    else
      var id := IntToString(form.ProductId);
      if HasNewImage(form.ProductImageFile) then
        Response(RedirectToIndex, [], Succeeded,
                 [UploadProductImage(form.ProductImageFile.value, id), CreateProduct(NewProductFrom(form, uploadedUrl))])
      else
        Response(RedirectToIndex, [], Succeeded, [CreateProduct(NewProductFrom(form, ""))])
  }

  /** GET Product/Edit: the stored product shown in the form, its id parsed
      back to an `int`. An id that does not parse throws, and nothing in the
      action catches it. */
  function EditForm(s: Store, id: string): (r: Response<ProductForm>)
    ensures r.calls == [] <==> IsNullOrEmpty(id)
    ensures !IsNullOrEmpty(id) ==> r.calls == [GetProduct(id)]
    ensures r.outcome.NotFound? <==> IsNullOrEmpty(id) || id !in s.products
    ensures r.outcome.Unhandled? <==> !IsNullOrEmpty(id) && id in s.products && ParseInt(s.products[id].ProductId()).None?
    ensures r.outcome.Render? <==> !IsNullOrEmpty(id) && id in s.products && ParseInt(s.products[id].ProductId()).Some?
    ensures r.outcome.Render? ==>
              var p := s.products[id];
              var f := r.outcome.model;
              && Some(f.ProductId) == ParseInt(p.ProductId())
              && f.ProductName == p.ProductName && f.Description == p.Description
              && f.Price == p.Price && f.StockAvailable == p.StockAvailable
              && f.ProductImageFile.None?
    ensures r.errors == [] && r.notice == NoNotice
  {
    if IsNullOrEmpty(id) then Response(NotFound, [], NoNotice, [])
    else
      match Lookup(s.products, id)
      case None => Response(NotFound, [], NoNotice, [GetProduct(id)])
      case Some(p) =>
        match ParseInt(p.ProductId())
        case None => Response(Unhandled, [], NoNotice, [GetProduct(id)])
        case Some(n) =>
          Response(Render(ProductForm(n, p.ProductName, p.Description, p.Price, p.StockAvailable, None)),
                   [], NoNotice, [GetProduct(id)])
  }

  /** The calls that replace a product's image: delete the old blob when
      there is an old URL, then upload the new file. */
  function ReplaceImage(stored: Product, file: FormFile, imageNameOf: string -> string): seq<Call> {
    (if IsNullOrEmpty(stored.ImageUrl) then [] else [DeleteProductImage(imageNameOf(stored.ImageUrl))])
    + [UploadProductImage(file, stored.ProductId())]
  }

  /** The product Edit stores: the four form fields copied over the stored
      row, and the new image URL. */
  function Edited(stored: Product, form: ProductForm, imageUrl: string): Product {
    stored.(ProductName := form.ProductName, Description := form.Description,
         Price := form.Price, StockAvailable := form.StockAvailable, ImageUrl := imageUrl)
  }

  /** POST Product/Edit. A product that is not stored is NotFound with no
      write. Otherwise name, description, price and stock are taken from the
      form and the id is kept. The image is replaced only when a non-empty
      file was chosen, and the old blob is deleted only when there was an
      old URL; otherwise the image URL is kept. */
  function EditPost(s: Store, formValid: bool, form: ProductForm, uploadedUrl: string,
                    imageNameOf: string -> string): (r: Response<ProductForm>)
    ensures !formValid ==> r == Response(Render(form), [], NoNotice, [])
    ensures formValid && IntToString(form.ProductId) !in s.products ==>
              r == Response(NotFound, [], NoNotice, [GetProduct(IntToString(form.ProductId))])
    ensures formValid && IntToString(form.ProductId) in s.products ==>
              var stored := s.products[IntToString(form.ProductId)];
              && r.outcome.RedirectToIndex? && r.errors == [] && r.notice == Succeeded
              && |r.calls| >= 2
              && r.calls[0] == GetProduct(IntToString(form.ProductId))
              && r.calls[|r.calls| - 1].UpdateProduct?
              && var p := r.calls[|r.calls| - 1].product;
              && p.ProductId() == stored.ProductId() && p.ETag == stored.ETag && p.PartitionKey == stored.PartitionKey
              && p.ProductName == form.ProductName && p.Description == form.Description
              && p.Price == form.Price && p.StockAvailable == form.StockAvailable
              && (!HasNewImage(form.ProductImageFile) ==> p.ImageUrl == stored.ImageUrl && |r.calls| == 2)
              && (HasNewImage(form.ProductImageFile) ==>
                    && p.ImageUrl == uploadedUrl
                    && r.calls == [GetProduct(IntToString(form.ProductId))]
                                  + (if IsNullOrEmpty(stored.ImageUrl) then []
                                     else [DeleteProductImage(imageNameOf(stored.ImageUrl))])
                                  + [UploadProductImage(form.ProductImageFile.value, stored.ProductId()),
                                     UpdateProduct(p)])
              && (DeleteProductImage(imageNameOf(stored.ImageUrl)) in r.calls <==>
                    HasNewImage(form.ProductImageFile) && !IsNullOrEmpty(stored.ImageUrl))
  {
    if !formValid then Response(Render(form), [], NoNotice, [])
    else
      var id := IntToString(form.ProductId);
      match Lookup(s.products, id)
      case None => Response(NotFound, [], NoNotice, [GetProduct(id)])
      case Some(stored) =>
        if HasNewImage(form.ProductImageFile) then
          var p := Edited(stored, form, uploadedUrl);
          Response(RedirectToIndex, [], Succeeded,
                   [GetProduct(id)] + ReplaceImage(stored, form.ProductImageFile.value, imageNameOf) + [UpdateProduct(p)])
        else
          var p := Edited(stored, form, stored.ImageUrl);
          Response(RedirectToIndex, [], Succeeded, [GetProduct(id), UpdateProduct(p)])
  }

  /** POST Product/Delete. The image blob is deleted first, and only when
      the product exists with a non-empty image URL; the product row is then
      deleted in every case. */
  function Delete(s: Store, id: string, imageNameOf: string -> string): (r: Response<ProductForm>)
    ensures r.outcome.RedirectToIndex? && r.errors == [] && r.notice == Succeeded
    ensures |r.calls| >= 2 && r.calls[0] == GetProduct(id) && r.calls[|r.calls| - 1] == DeleteProduct(id)
    ensures |r.calls| == 3 <==> id in s.products && !IsNullOrEmpty(s.products[id].ImageUrl)
    ensures |r.calls| == 3 ==> r.calls[1] == DeleteProductImage(imageNameOf(s.products[id].ImageUrl))
    ensures |r.calls| <= 3
  {
    var imageCalls :=
      match Lookup(s.products, id)
      case Some(p) => if IsNullOrEmpty(p.ImageUrl) then [] else [DeleteProductImage(imageNameOf(p.ImageUrl))]
      case None => [];
    Response(RedirectToIndex, [], Succeeded, [GetProduct(id)] + imageCalls + [DeleteProduct(id)])
  }

  // ---------------------------------------------------------------------
  // Properties relating the operations

  /** A product created through the form under an id not yet taken can be
      opened for editing, and the edit form shows the same id and fields:
      the id's decimal text parses back to the number it was written from.
      (Under a taken id `AddEntityAsync` fails and nothing is stored.) */
  lemma CreatedProductOpensInEditForm(s: Store, form: ProductForm, uploadedUrl: string)
    requires IsInt32(form.ProductId)
    requires IntToString(form.ProductId) !in s.products
    ensures var t := Run(s, Create(true, form, uploadedUrl).calls);
            var r := EditForm(t, IntToString(form.ProductId));
            && r.outcome.Render?
            && r.outcome.model == form.(ProductImageFile := None)
  {
    var id := IntToString(form.ProductId);
    var c := Create(true, form, uploadedUrl);
    var t := Run(s, c.calls);
    var last := c.calls[|c.calls| - 1];
    if HasNewImage(form.ProductImageFile) {
      RunAppend(s, c.calls[..1], c.calls[1..]);
      assert c.calls == c.calls[..1] + c.calls[1..];
    }
    assert t == Effect(s, last);
    assert id in t.products && t.products[id].ProductId() == id;
    ParseIntToString(form.ProductId);
  }

  /** Edit writes one product row: the edited product under its own id;
      every other row, table, the queue and the stored proofs are left
      alone. */
  lemma EditChangesOnlyThatProduct(s: Store, form: ProductForm, uploadedUrl: string, imageNameOf: string -> string)
    requires WellFormed(s)
    requires IntToString(form.ProductId) in s.products
    ensures var id := IntToString(form.ProductId);
            var stored := s.products[id];
            var url := if HasNewImage(form.ProductImageFile) then uploadedUrl else stored.ImageUrl;
            var t := Run(s, EditPost(s, true, form, uploadedUrl, imageNameOf).calls);
            t == s.(products := s.products[id := Edited(stored, form, url)])
  {
    var id := IntToString(form.ProductId);
    var calls := EditPost(s, true, form, uploadedUrl, imageNameOf).calls;
    var n := |calls| - 1;
    assert calls == calls[..n] + [calls[n]];
    assert ReadOnly(calls[..n]);
    RunReadsThenCall(s, calls[..n], calls[n]);
  }

  /** After an Edit of a stored product, the order form's price lookup
      reports the price, stock and name that were posted. */
  lemma EditedProductPriceIsReported(s: Store, form: ProductForm, uploadedUrl: string, imageNameOf: string -> string)
    requires WellFormed(s)
    ensures var id := IntToString(form.ProductId);
            var t := Run(s, EditPost(s, true, form, uploadedUrl, imageNameOf).calls);
            id in s.products ==>
              OrderController.GetProductPrice(t, id).outcome
                == Json(OrderController.PriceFound(form.Price, form.StockAvailable, form.ProductName))
  {
    if IntToString(form.ProductId) in s.products {
      EditChangesOnlyThatProduct(s, form, uploadedUrl, imageNameOf);
    }
  }

  /** After Delete the product row is gone, whether or not it was there, and
      no other table has changed. */
  lemma DeleteRemovesProduct(s: Store, id: string, imageNameOf: string -> string)
    ensures var t := Run(s, Delete(s, id, imageNameOf).calls);
            t == s.(products := s.products - {id})
  {
  }

  /** Editing keeps a product valid when the form's fields meet the
      `Product` attributes; the id is never touched. */
  lemma EditPreservesValidity(stored: Product, form: ProductForm, url: string)
    requires ValidProduct(stored)
    requires Present(form.ProductName) && AtMost(form.ProductName, 100)
    requires Present(form.Description) && AtMost(form.Description, 500)
    requires form.Price >= MinPrice && 0 <= form.StockAvailable <= Int32Max
    ensures ValidProduct(Edited(stored, form, url))
    ensures Edited(stored, form, url).ProductId() == stored.ProductId()
  {
  }
}

=== FILE: storage.dfy ===
/** The storage service seen from the controllers: an abstract store, the
    calls a controller makes on it, and their effect on the three tables.
    Each table is a map from row key to row. Blob and file-share contents
    appear only as the names of the payment-proof files that exist; upload
    names carry a timestamp, so the controllers receive them as inputs. */
module Storage {
  import opened Base
  import opened CustomerModel
  import opened ProductModel
  import opened OrderModel

  /** An uploaded form file (`IFormFile`): its client-side name and its
      length in bytes. */
  datatype FormFile = FormFile(fileName: string, length: nat)

  datatype Store = Store(
    customers: map<string, Customer>,
    products: map<string, Product>,
    orders: map<string, Order>,
    proofs: set<string>,
    queue: seq<Order>)

  /** One call a controller makes on the storage service. */
  datatype Call =
    | GetCustomer(customerId: string)
    | GetProduct(productId: string)
    | GetOrder(orderId: string)
    | ListCustomers
    | ListProducts
    | ListOrders
    | ListPaymentProofs
    | CreateProduct(product: Product)
    | UpdateProduct(product: Product)
    | DeleteProduct(productId: string)
    | CreateOrder(order: Order)
    | UpdateOrder(order: Order)
    | DeleteOrder(orderId: string)
    | UploadProductImage(image: FormFile, imageProductId: string)
    | DeleteProductImage(imageName: string)
    | UploadPaymentProof(proof: FormFile, proofOrderId: string, customerName: string)
    | DownloadPaymentProof(fileName: string)
    | DeletePaymentProof(proofName: string)
  {
    /** True of the calls that change what the store holds: the six table
        writes and the deletion of a payment proof. */
    predicate Writes() {
      CreateProduct? || UpdateProduct? || DeleteProduct? ||
      CreateOrder? || UpdateOrder? || DeleteOrder? || DeletePaymentProof?
    }
  }

  /** `GetEntityIfExistsAsync`: the row, or null. */
  function Lookup<R>(table: map<string, R>, key: string): (r: Option<R>)
    ensures r.Some? <==> key in table
    ensures r.Some? ==> r.value == table[key]
  {
    if key in table then Some(table[key]) else None
  }

  /** The two tables agree on every key other than `key`. */
  ghost predicate SameExcept<R>(a: map<string, R>, b: map<string, R>, key: string) {
    forall k :: k != key ==> (k in a <==> k in b) && (k in a ==> a[k] == b[k])
  }

  /** What a call does to the store. Creating a row adds it under its row
      key with the table's partition key, unless that key is taken, when
      `AddEntityAsync` fails and nothing is written; creating an order also
      queues it. Updating stores the row under its key; deleting removes the
      row; deleting a payment proof removes the file if it exists. */
  function Effect(s: Store, c: Call): (t: Store)
    ensures !c.Writes() ==> t == s
    ensures t.customers == s.customers
    ensures !c.DeletePaymentProof? ==> t.proofs == s.proofs
    ensures c.DeletePaymentProof? ==>
              t.proofs == s.proofs - {c.proofName}
              && t.products == s.products && t.orders == s.orders && t.queue == s.queue
    ensures c.CreateProduct? && c.product.RowKey in s.products ==> t == s
    ensures (c.CreateProduct? && c.product.RowKey !in s.products) || c.UpdateProduct? ==>
              && SameExcept(s.products, t.products, c.product.RowKey)
              && c.product.RowKey in t.products
              && t.products[c.product.RowKey] == c.product.(PartitionKey := ProductPartition)
              && t.orders == s.orders && t.queue == s.queue
    ensures c.DeleteProduct? ==>
              SameExcept(s.products, t.products, c.productId) && c.productId !in t.products
              && t.orders == s.orders && t.queue == s.queue
    ensures c.CreateOrder? && c.order.RowKey in s.orders ==> t == s
    ensures (c.CreateOrder? && c.order.RowKey !in s.orders) || c.UpdateOrder? ==>
              && SameExcept(s.orders, t.orders, c.order.RowKey)
              && c.order.RowKey in t.orders
              && t.orders[c.order.RowKey] == c.order.(PartitionKey := OrderPartition)
              && t.products == s.products
    ensures c.CreateOrder? && c.order.RowKey !in s.orders ==>
              t.queue == s.queue + [c.order.(PartitionKey := OrderPartition)]
    ensures c.UpdateOrder? ==> t.queue == s.queue
    ensures c.DeleteOrder? ==>
              SameExcept(s.orders, t.orders, c.orderId) && c.orderId !in t.orders
              && t.products == s.products && t.queue == s.queue
  {
    match c
    case CreateProduct(p) =>
      if p.RowKey in s.products then s
      else s.(products := s.products[p.RowKey := p.(PartitionKey := ProductPartition)])
    case UpdateProduct(p) =>
      s.(products := s.products[p.RowKey := p.(PartitionKey := ProductPartition)])
    case DeleteProduct(id) => s.(products := s.products - {id})
    case CreateOrder(o) =>
      if o.RowKey in s.orders then s
      else
        var stored := o.(PartitionKey := OrderPartition);
        s.(orders := s.orders[o.RowKey := stored], queue := s.queue + [stored])
    case UpdateOrder(o) =>
      s.(orders := s.orders[o.RowKey := o.(PartitionKey := OrderPartition)])
    case DeleteOrder(id) => s.(orders := s.orders - {id})
    case DeletePaymentProof(name) => s.(proofs := s.proofs - {name})
    case _ => s
  }

  /** The store after a sequence of calls, in order. */
  function Run(s: Store, calls: seq<Call>): (t: Store)
    ensures (forall i :: 0 <= i < |calls| ==> !calls[i].Writes()) ==> t == s
    ensures |calls| == 1 ==> t == Effect(s, calls[0])
    decreases |calls|
  {
    if |calls| == 0 then s else Run(Effect(s, calls[0]), calls[1..])
  }

  lemma {:induction false} RunAppend(s: Store, a: seq<Call>, b: seq<Call>)
    ensures Run(s, a + b) == Run(Run(s, a), b)
    decreases |a|
  {
    if |a| == 0 {
      assert a + b == b;
    } else {
      assert (a + b)[1..] == a[1..] + b;
      RunAppend(Effect(s, a[0]), a[1..], b);
    }
  }

  /** Every row is stored under its own row key, in its table's partition:
      the shape the service's create and update methods give the tables. */
  predicate WellFormed(s: Store) {
    && (forall k :: k in s.customers ==> s.customers[k].RowKey == k && s.customers[k].PartitionKey == CustomerPartition)
    && (forall k :: k in s.products ==> s.products[k].RowKey == k && s.products[k].PartitionKey == ProductPartition)
    && (forall k :: k in s.orders ==> s.orders[k].RowKey == k && s.orders[k].PartitionKey == OrderPartition)
  }

  /** No call breaks the shape of the tables. */
  lemma {:induction false} RunKeepsWellFormed(s: Store, calls: seq<Call>)
    requires WellFormed(s)
    ensures WellFormed(Run(s, calls))
    decreases |calls|
  {
    if |calls| > 0 {
      var t := Effect(s, calls[0]);
      assert WellFormed(t);
      RunKeepsWellFormed(t, calls[1..]);
    }
  }

  /** True when no call in `calls` changes the store. */
  predicate ReadOnly(calls: seq<Call>) {
    forall i :: 0 <= i < |calls| ==> !calls[i].Writes()
  }

  /** Reads before a single last call leave only the last call's effect. */
  lemma RunReadsThenCall(s: Store, before: seq<Call>, last: Call)
    requires ReadOnly(before)
    ensures Run(s, before + [last]) == Effect(s, last)
  {
    RunAppend(s, before, [last]);
  }
}

/** What a controller action hands back to the framework. */
module ActionResults {
  import opened Storage

  /** The errors an action adds to `ModelState`. */
  datatype ModelError =
    | NoFileSelected          // "Please select a file to upload."
    | FileTypeNotAllowed      // "Only PDF, Image (JPG, JPEG, PNG), and Document (DOC, DOCX) files are allowed."
    | FileTooLarge            // "File size cannot exceed 5MB."
    | InvalidCustomerOrProduct // "Invalid customer or product selected."

  /** The message an action leaves in `TempData` for the next request. */
  datatype Notice = NoNotice | Succeeded | OrderNotFound | OrderMissingOrModified

  /** The `IActionResult` returned, with the view model where there is one.
      `Unhandled` is an exception that leaves the action uncaught. */
  datatype Outcome<V> =
    | NotFound
    | RedirectToIndex
    | Render(model: V)
    | Json(reply: V)
    | SendFile(contentType: string, downloadName: string)
    | Unhandled

  /** Everything an action does: its result, the model errors and notice it
      sets, and the storage calls it makes, in order. */
  datatype Response<V> = Response(outcome: Outcome<V>, errors: seq<ModelError>, notice: Notice, calls: seq<Call>)
}

=== FILE: text.dfy ===
/** The pieces of .NET string handling the controllers rely on:
    `string.IsNullOrEmpty`, `string.IsNullOrWhiteSpace`, `ToLowerInvariant`,
    `Path.GetExtension`, and `int.ToString` / `int.Parse` on decimal text.
    A C# null string is represented by the empty string throughout. */
module Text {
  import opened Base

  predicate IsNullOrEmpty(s: string) {
    |s| == 0
  }

  /** `char.IsWhiteSpace`: the Unicode space separators, the line and
      paragraph separators, and the control characters U+0009..U+000D,
      U+0085. Tab, line feed, carriage return and space are among them; no
      ASCII letter or digit is, and none lies above U+3000. */
  predicate IsWhiteSpace(c: char)
    ensures c == ' ' || c == '\t' || c == '\n' || c == '\r' ==> IsWhiteSpace(c)
    ensures 'a' <= c <= 'z' || 'A' <= c <= 'Z' || '0' <= c <= '9' ==> !IsWhiteSpace(c)
    ensures IsWhiteSpace(c) ==> c as int <= 0x3000
  {
    var n := c as int;
    || 0x09 <= n <= 0x0D || n == 0x20 || n == 0x85 || n == 0xA0
    || n == 0x1680 || 0x2000 <= n <= 0x200A || n == 0x2028 || n == 0x2029
    || n == 0x202F || n == 0x205F || n == 0x3000
  }

  predicate IsNullOrWhiteSpace(s: string) {
    forall i :: 0 <= i < |s| ==> IsWhiteSpace(s[i])
  }

  /** What `[Required]` demands of a string property: not null, not empty,
      and not made of white space alone; that is, some character of it is
      not white space. */
  predicate Present(s: string)
    ensures Present(s) <==> exists i :: 0 <= i < |s| && !IsWhiteSpace(s[i])
    ensures Present(s) ==> !IsNullOrEmpty(s)
  {
    !IsNullOrWhiteSpace(s)
  }

  /** The length .NET's `string.Length` reports: the number of UTF-16 code
      units, two for a character outside the Basic Multilingual Plane. */
  function Utf16Length(s: string): (n: nat)
    ensures |s| <= n <= 2 * |s|
  {
    if |s| == 0 then 0
    else (if s[0] as int >= 0x1_0000 then 2 else 1) + Utf16Length(s[1..])
  }

  /** A string of Basic Multilingual Plane characters has as many UTF-16
      code units as characters. */
  lemma {:induction false} Utf16LengthOfBmp(s: string)
    requires forall i :: 0 <= i < |s| ==> s[i] as int < 0x1_0000
    ensures Utf16Length(s) == |s|
  {
    if |s| > 0 {
      Utf16LengthOfBmp(s[1..]);
    }
  }

  /** What `[StringLength(max)]` demands of a string property: at most
      `max` UTF-16 code units. */
  predicate AtMost(s: string, max: nat) {
    Utf16Length(s) <= max
  }

  predicate IsUpper(c: char) {
    'A' <= c <= 'Z'
  }

  /** Upper-case ASCII letters become their lower-case letters; every other
      character is kept. */
  function ToLowerChar(c: char): (r: char)
    ensures !IsUpper(r)
    ensures !IsUpper(c) ==> r == c
    ensures IsUpper(c) ==> 'a' <= r <= 'z' && r as int - c as int == 32
  {
    if IsUpper(c) then (c as int + 32) as char else c
  }

  /** `ToLowerInvariant`, on the ASCII letters. */
  function ToLowerInvariant(s: string): (r: string)
    ensures |r| == |s|
    ensures forall i :: 0 <= i < |r| ==> !IsUpper(r[i])
    ensures forall i :: 0 <= i < |s| ==> r[i] == ToLowerChar(s[i])
  {
    seq(|s|, i requires 0 <= i < |s| => ToLowerChar(s[i]))
  }

  /** Lower-casing a string that is already lower case changes nothing. */
  lemma {:induction false} ToLowerIdempotent(s: string)
    ensures ToLowerInvariant(ToLowerInvariant(s)) == ToLowerInvariant(s)
  {
  }

  /** The position of the last '.' in `s`, if there is one. */
  function LastDot(s: string): (r: Option<nat>)
    ensures r.None? <==> '.' !in s
    ensures r.Some? ==> r.value < |s| && s[r.value] == '.'
    ensures r.Some? ==> forall j :: r.value < j < |s| ==> s[j] != '.'
  {
    if |s| == 0 then None
    else if s[|s| - 1] == '.' then Some(|s| - 1)
    else LastDot(s[..|s| - 1])
  }

  /** `Path.GetExtension`: the suffix from the last '.' on, or "" when the
      name has no '.'. */
  function GetExtension(path: string): (ext: string)
    ensures ext == "" <==> '.' !in path
    ensures ext != "" ==> ext[0] == '.' && '.' !in ext[1..]
    ensures |ext| <= |path| && ext == path[|path| - |ext|..]
  {
    match LastDot(path)
    case None => ""
    case Some(k) => path[k..]
  }

  predicate IsDigit(c: char) {
    '0' <= c <= '9'
  }

  predicate AllDigits(s: string) {
    forall i :: 0 <= i < |s| ==> IsDigit(s[i])
  }

  function DigitChar(d: nat): (c: char)
    requires d < 10
    ensures IsDigit(c)
    ensures c as int - '0' as int == d
  {
    ('0' as int + d) as char
  }

  /** The decimal digits of `n`, most significant first, no leading zero. */
  function NatToDigits(n: nat): (s: string)
    ensures |s| >= 1 && AllDigits(s)
    ensures |s| > 1 ==> s[0] != '0'
  {
    if n < 10 then [DigitChar(n)] else NatToDigits(n / 10) + [DigitChar(n % 10)]
  }

  /** The number a string of decimal digits denotes. */
  function DigitsValue(s: string): nat
    requires AllDigits(s)
  {
    if |s| == 0 then 0
    else DigitsValue(s[..|s| - 1]) * 10 + (s[|s| - 1] as int - '0' as int)
  }

  /** `int.ToString()` under a culture whose negative sign is '-' and whose
      digits are '0' to '9'. */
  function IntToString(n: int): (s: string)
    ensures |s| >= 1
    ensures s[0] == '-' <==> n < 0
  {
    if n < 0 then "-" + NatToDigits(-n) else NatToDigits(n)
  }

  /** `int.Parse` on an optional '-' followed by decimal digits; `None`
      where the source would throw (no digits, a stray character, or a value
      outside the `int` range). */
  function ParseInt(s: string): (r: Option<int>)
    ensures r.Some? ==> IsInt32(r.value)
    ensures r.Some? ==> |s| >= 1 && (r.value < 0 ==> s[0] == '-')
  {
    if |s| >= 2 && s[0] == '-' && AllDigits(s[1..]) then
      var v: int := 0 - DigitsValue(s[1..]) as int;
      if IsInt32(v) then Some(v) else None
    else if |s| >= 1 && AllDigits(s) then
      var v := DigitsValue(s);
      if IsInt32(v) then Some(v) else None
    else
      None
  }

  lemma {:induction false} DigitsRoundTrip(n: nat)
    ensures DigitsValue(NatToDigits(n)) == n
  {
    var s := NatToDigits(n);
    if n >= 10 {
      DigitsRoundTrip(n / 10);
      assert s[..|s| - 1] == NatToDigits(n / 10);
    }
  }

  /** Parsing the decimal text of an `int` gives the `int` back. */
  lemma ParseIntToString(n: int)
    requires IsInt32(n)
    ensures ParseInt(IntToString(n)) == Some(n)
  {
    var s := IntToString(n);
    if n < 0 {
      assert s[1..] == NatToDigits(-n);
      DigitsRoundTrip(-n);
    } else {
      DigitsRoundTrip(n);
    }
  }

  /** Distinct `int`s have distinct decimal text. */
  lemma IntToStringInjective(m: int, n: int)
    requires IsInt32(m) && IsInt32(n)
    requires IntToString(m) == IntToString(n)
    ensures m == n
  {
    ParseIntToString(m);
    ParseIntToString(n);
  }

  /** Lower-casing moves no '.', so the last '.' stays where it was. */
  lemma LastDotOfLower(name: string)
    ensures LastDot(ToLowerInvariant(name)) == LastDot(name)
  {
  }

  /** Lower-casing a suffix gives the suffix of the lower-cased string. */
  lemma LowerOfSuffix(name: string, k: nat)
    requires k <= |name|
    ensures ToLowerInvariant(name[k..]) == ToLowerInvariant(name)[k..]
  {
  }

  /** Lower-casing commutes with taking the extension. */
  lemma ExtensionOfLower(name: string)
    ensures GetExtension(ToLowerInvariant(name)) == ToLowerInvariant(GetExtension(name))
  {
    LastDotOfLower(name);
    if LastDot(name).Some? {
      LowerOfSuffix(name, LastDot(name).value);
    }
  }
}

=== FILE: upload.dfy ===
/** `UploadController`: the payment-proof upload form, its validation
    chain, download and delete of stored proofs, and the extension to
    content-type mapping used on download. */
module UploadController {
  import opened Base
  import opened Text
  import opened Storage
  import opened ActionResults

  /** The file extensions the upload accepts, compared in lower case. */
  const AllowedExtensions: seq<string> := [".pdf", ".jpg", ".jpeg", ".png", ".doc", ".docx"]

  /** The upload ceiling: 5 MiB. */
  const MaxFileSize: nat := 5 * 1024 * 1024

  /** Stand-ins for an empty order id and customer name. */
  const DefaultOrderId: string := "GENERAL"
  const DefaultCustomerName: string := "UNKNOWN"

  const OctetStream: string := "application/octet-stream"

  /** The payment-proof form (`FileUploadModel`). */
  datatype UploadForm = UploadForm(proofOfPayment: Option<FormFile>, orderId: string, customerName: string)

  /** The form `new FileUploadModel()` shows: no file, empty fields. */
  const BlankForm: UploadForm := UploadForm(None, "", "")

  /** The lower-cased extension of a file name. */
  function NormalizedExtension(fileName: string): string {
    ToLowerInvariant(GetExtension(fileName))
  }

  predicate IsEmptyFile(f: Option<FormFile>) {
    f.None? || f.value.length == 0
  }

  predicate HasAllowedExtension(f: FormFile) {
    NormalizedExtension(f.fileName) in AllowedExtensions
  }

  predicate WithinSizeLimit(f: FormFile) {
    f.length <= MaxFileSize
  }

  /** Every check the file fails, regardless of order. */
  function Failures(f: Option<FormFile>): set<ModelError> {
    (if IsEmptyFile(f) then {NoFileSelected} else {})
    + (if f.Some? && !HasAllowedExtension(f.value) then {FileTypeNotAllowed} else {})
    + (if f.Some? && !WithinSizeLimit(f.value) then {FileTooLarge} else {})
  }

  /** The position of each check in the chain. */
  function Rank(e: ModelError): nat {
    match e
    case NoFileSelected => 0
    case FileTypeNotAllowed => 1
    case FileTooLarge => 2
    case InvalidCustomerOrProduct => 3
  }

  /** The validation chain: empty file, then extension, then size. It
      reports the earliest check in that order that the file fails, and
      accepts exactly the files that fail none. */
  function Validate(f: Option<FormFile>): (r: Option<ModelError>)
    ensures r.None? <==> Failures(f) == {}
    ensures r.Some? ==> r.value in Failures(f)
    ensures r.Some? ==> forall e :: e in Failures(f) ==> Rank(r.value) <= Rank(e)
  {
    if IsEmptyFile(f) then Some(NoFileSelected)
    else if !HasAllowedExtension(f.value) then Some(FileTypeNotAllowed)
    else if !WithinSizeLimit(f.value) then Some(FileTooLarge)
    else None
  }

  /** `s` itself when it is non-empty, and `fallback` when it is null or empty. */
  function OrDefault(s: string, fallback: string): string {
    if IsNullOrEmpty(s) then fallback else s
  }

  /** POST Upload. With an invalid form the page is shown again with the
      form as posted. A file that fails validation adds exactly one error and
      shows a blank form. A file that passes is uploaded, with defaults for
      an empty order id or customer name, and the browser is redirected. The
      only write is the upload, and it happens only on the redirect path. */
  function Post(formValid: bool, m: UploadForm): (r: Response<UploadForm>)
    ensures r.outcome.RedirectToIndex? <==> formValid && Validate(m.proofOfPayment).None?
    ensures |r.errors| <= 1
    ensures !formValid ==> r == Response(Render(m), [], NoNotice, [ListPaymentProofs])
    ensures formValid && Validate(m.proofOfPayment).Some? ==>
              r == Response(Render(BlankForm), [Validate(m.proofOfPayment).value], NoNotice, [ListPaymentProofs])
    ensures r.outcome.RedirectToIndex? ==>
              && m.proofOfPayment.Some?
              && |r.calls| == 1 && r.calls[0].UploadPaymentProof?
              && r.calls[0].proof == m.proofOfPayment.value
              && (m.orderId == "" ==> r.calls[0].proofOrderId == DefaultOrderId)
              && (m.orderId != "" ==> r.calls[0].proofOrderId == m.orderId)
              && (m.customerName == "" ==> r.calls[0].customerName == DefaultCustomerName)
              && (m.customerName != "" ==> r.calls[0].customerName == m.customerName)
              && r.errors == [] && r.notice == Succeeded
  {
    if !formValid then
      Response(Render(m), [], NoNotice, [ListPaymentProofs])
    else
      match Validate(m.proofOfPayment)
      case Some(e) =>
        // the action falls through to the listing page, which shows a fresh form
        Response(Render(BlankForm), [e], NoNotice, [ListPaymentProofs])
      case None =>
        var orderId := OrDefault(m.orderId, DefaultOrderId);
        var customerName := OrDefault(m.customerName, DefaultCustomerName);
        Response(RedirectToIndex, [], Succeeded,
                 [UploadPaymentProof(m.proofOfPayment.value, orderId, customerName)])
  }

  /** The MIME type for a lower-cased extension. */
  function ContentTypeOf(ext: string): (ct: string)
    ensures ct != OctetStream <==> ext in AllowedExtensions
  {
    assert ext in AllowedExtensions <==>
      ext == ".pdf" || ext == ".jpg" || ext == ".jpeg" || ext == ".png" || ext == ".doc" || ext == ".docx";
    match ext
    case ".pdf" => "application/pdf"
    case ".jpg" => "image/jpeg"
    case ".jpeg" => "image/jpeg"
    case ".png" => "image/png"
    case ".doc" => "application/msword"
    case ".docx" => "application/vnd.openxmlformats-officedocument.wordprocessingml.document"
    case _ => OctetStream
  }

  /** The content type sent with a download. It is specific exactly for the
      extensions the upload accepts, and the generic octet stream otherwise. */
  function GetContentType(fileName: string): (ct: string)
    ensures ct != OctetStream <==> NormalizedExtension(fileName) in AllowedExtensions
  {
    ContentTypeOf(NormalizedExtension(fileName))
  }

  /** GET Upload/Download. An empty name is answered with NotFound before
      any storage call; otherwise the file is fetched and sent with its
      content type when it exists. */
  function Download(s: Store, fileName: string): (r: Response<UploadForm>)
    ensures r.calls == [] <==> IsNullOrEmpty(fileName)
    ensures IsNullOrEmpty(fileName) ==> r.outcome.NotFound?
    ensures !IsNullOrEmpty(fileName) ==> r.calls == [DownloadPaymentProof(fileName)]
    ensures r.outcome.SendFile? <==> !IsNullOrEmpty(fileName) && fileName in s.proofs
    ensures r.outcome.SendFile? ==> r.outcome == SendFile(GetContentType(fileName), fileName)
    ensures !r.outcome.SendFile? ==> r.outcome.NotFound?
    ensures r.errors == [] && r.notice == NoNotice
  {
    if IsNullOrEmpty(fileName) then Response(NotFound, [], NoNotice, [])
    else if fileName in s.proofs then
      Response(SendFile(GetContentType(fileName), fileName), [], NoNotice, [DownloadPaymentProof(fileName)])
    else
      Response(NotFound, [], NoNotice, [DownloadPaymentProof(fileName)])
  }

  /** POST Upload/DeleteFile. An empty name is answered with NotFound before
      any storage call; any other name is deleted and the browser sent back
      to the listing. */
  function DeleteFile(fileName: string): (r: Response<UploadForm>)
    ensures r.calls == [] <==> IsNullOrEmpty(fileName)
    ensures IsNullOrEmpty(fileName) ==> r.outcome.NotFound?
    ensures IsNullOrEmpty(fileName) ==> r.notice == NoNotice
    ensures !IsNullOrEmpty(fileName) ==>
              r.calls == [DeletePaymentProof(fileName)] && r.outcome.RedirectToIndex? && r.notice == Succeeded
    ensures r.errors == []
  {
    if IsNullOrEmpty(fileName) then Response(NotFound, [], NoNotice, [])
    else Response(RedirectToIndex, [], Succeeded, [DeletePaymentProof(fileName)])
  }

  // ---------------------------------------------------------------------
  // Properties relating the operations

  /** DeleteFile removes just that payment proof, and a Download of the
      same name afterwards is NotFound. */
  lemma DeletedFileNotDownloaded(s: Store, fileName: string)
    ensures var t := Run(s, DeleteFile(fileName).calls);
            && (!IsNullOrEmpty(fileName) ==> t == s.(proofs := s.proofs - {fileName}))
            && Download(t, fileName).outcome.NotFound?
  {
  }

  /** Names that agree up to case have the same lower-cased extension. */
  lemma NormalizedExtensionIgnoresCase(a: string, b: string)
    requires ToLowerInvariant(a) == ToLowerInvariant(b)
    ensures NormalizedExtension(a) == NormalizedExtension(b)
  {
    ExtensionOfLower(a);
    ExtensionOfLower(b);
    ToLowerIdempotent(GetExtension(a));
    ToLowerIdempotent(GetExtension(b));
  }

  /** The upload validation does not see the case of the file name: a file
      is accepted or rejected, and for the same reason, whatever the case of
      its extension. */
  lemma ValidateIgnoresCase(f: FormFile, g: FormFile)
    requires f.length == g.length
    requires ToLowerInvariant(f.fileName) == ToLowerInvariant(g.fileName)
    ensures Validate(Some(f)) == Validate(Some(g))
  {
    NormalizedExtensionIgnoresCase(f.fileName, g.fileName);
  }

  /** The content type does not see the case of the file name either. */
  lemma ContentTypeIgnoresCase(a: string, b: string)
    requires ToLowerInvariant(a) == ToLowerInvariant(b)
    ensures GetContentType(a) == GetContentType(b)
  {
    NormalizedExtensionIgnoresCase(a, b);
  }

  /** Example: "proof.PDF" has an accepted extension and downloads as a PDF. */
  lemma UpperCasePdfAccepted()
    ensures NormalizedExtension("proof.PDF") == ".pdf"
    ensures Validate(Some(FormFile("proof.PDF", MaxFileSize))) == None
    ensures GetContentType("proof.PDF") == "application/pdf"
  {
  }

  /** The size check is inclusive: a file of exactly 5 MiB with an accepted
      extension passes, one byte more is rejected for its size. */
  lemma SizeBoundary(name: string)
    requires NormalizedExtension(name) in AllowedExtensions
    ensures Validate(Some(FormFile(name, MaxFileSize))) == None
    ensures Validate(Some(FormFile(name, MaxFileSize + 1))) == Some(FileTooLarge)
  {
  }

  /** .jpg and .jpeg share a content type; every other accepted extension
      has one of its own. */
  lemma ContentTypesOfAllowed()
    ensures ContentTypeOf(".jpg") == ContentTypeOf(".jpeg") == "image/jpeg"
    ensures forall i, j :: 0 <= i < j < |AllowedExtensions| && AllowedExtensions[i] != ".jpg" ==>
              ContentTypeOf(AllowedExtensions[i]) != ContentTypeOf(AllowedExtensions[j])
  {
  }

  /** Every file the upload accepts downloads with a specific content type. */
  lemma AcceptedFilesHaveContentType(f: FormFile)
    requires Validate(Some(f)).None?
    ensures GetContentType(f.fileName) != OctetStream
  {
  }
}
